=== FILE: README.md ===
# Library catalog API — a Dafny model

This project models the core of a small library catalog service and its
browser client. Authors, books and users live in a document store. A typed
query/mutation API reads and writes them. A "book added" topic announces
every book that is saved. Writes to authors and books require a logged-in
user, who is identified by a bearer token.

What is modelled:

- **Store** (`store.dfy`): the document store as three insertion-ordered
  collections plus the event log. Object ids come from a counter.
  - `findOne` returns the first match.
  - `find` filters while keeping store order.
  - `countDocuments` counts the matches.
  - `populate` joins a book's author record.
  - A save may be refused.
  - `Store.Valid` is the invariant every resolver keeps: ids are distinct, saved books satisfy the book schema, and every book refers to a saved author. The store's own book save keeps it only for a book whose author reference resolves; the book schema does not require one, and `addBook` always supplies it.
- **Book schema** (`book_schema.dfy`): the title is required, at least 2 UTF-16 code units long (the unit a JavaScript string's length counts), and unique. No other field is constrained.
- **Context** (`auth.dfy`): the bearer-header parsing, and the lookup of the user named by the token's claim.
- **Resolvers** (`resolvers.dfy`): `allBooks` with its four filter branches, `bookCount`, `authorCount`, `allAuthors`, `me`, the derived `Author.bookCount`, and the mutations `addBook`, `addAuthor`, `editAuthor`, `createUser` and `login`. Each is a pure function of state, context and arguments. A mutation returns its result and the next state.
- **Requests** (`api.dfy`): one request is context building followed by dispatch. This module also holds the lemmas that relate several operations.
- **Client** (`client.dfy`, `recommendations.dfy`):
  - the genre-button collection;
  - the cache append done for a pushed book;
  - the genre selection and the books-query variables;
  - the favourite-genre filter of the recommendations view.

Parameters stand in for what the model does not compute:

- Token signing and verification: `sign` and `verify`.
- The outcome of saves whose rules are not in this model: a `Verdict`. These are the author and user schemas, and storage faults.

Behaviour of the code that the model keeps, although one might expect otherwise:

- A failed `login` raises a user-input error with the text `wrong credentials`, not a dedicated credential error.
- `allBooks` with an author name that does not resolve yields `undefined` from the resolver. It returns neither an empty list nor an error.
- A book's author reference is not required by the book schema. The invariant that every book refers to an author comes from `addBook`, the only place books are created.
- A rejected `createUser` save is not wrapped in a user-input error. The resolver returns the save's promise without awaiting it, so its `try`/`catch` never sees the rejection.

## Model

| member | source | states |
|---|---|---|
| `BookSchema.Validate` | bookData/models/book.js:4-9 | A save is rejected for a missing or empty title, then for a title shorter than 2 UTF-16 code units, then for a title another book already has. It is accepted exactly when `Acceptable` holds. |
| `BookSchema.Utf16Length` | bookData/models/book.js:7 | The length `minlength` compares is the UTF-16 length: between one and two units per character, and equal to the character count exactly when no character lies outside the Basic Multilingual Plane. |
| `BookSchema.AstralLetterIsLongEnough` | bookData/models/book.js:7 | A one-character title outside the Basic Multilingual Plane, such as U+1D538, is two units long and passes `minlength: 2`. |
| `BookSchema.OnlyTitleMatters` | bookData/models/book.js:10-19 | `published`, `author` and `genres` never affect validity. Two documents with the same title validate alike. |
| `BookSchema.ExistingTitlesDecide` | bookData/models/book.js:8 | Uniqueness depends only on the titles already saved. |
| `Store.AuthorNamed` | bookData/index.js:154 | `Author.findOne({ name })` finds the first author with exactly that name. It finds none exactly when no author has it. |
| `Store.UserNamed` | bookData/index.js:234 | `User.findOne({ username })` finds the first user with that username. It finds none exactly when no user has it. |
| `Store.UserWithId` | bookData/index.js:264 | `User.findById` finds a user carrying that id. It finds none exactly when no user has it. |
| `Store.AuthorWithId` | bookData/index.js:95 | The author a reference points to is found exactly when its id is saved. |
| `Store.Find` | bookData/index.js:103-128 | `Book.find(filter)` returns exactly the matching books, as an order-preserving subsequence of the store. |
| `Store.FindCountsMatches` | bookData/index.js:142 | Counting the result of `find` gives exactly the number of books the filter matches. |
| `Store.FindSnoc` | bookData/index.js:142 | A newly saved book joins the result of exactly the filters it matches, after the earlier matches. |
| `Store.Populate` | bookData/index.js:95 | The joined author is present exactly when the reference resolves, and it is the referenced saved author. |
| `Store.InsertAuthor` | bookData/index.js:156-158 | A refused save raises the refusal and changes nothing. An accepted save appends the new author, touches nothing else and keeps the store invariant. |
| `Store.InsertBook` | bookData/models/book.js:3-20 | A schema violation is reported as such. A save succeeds exactly when the schema accepts the document and the store does too. It then appends the book, touches nothing else, and keeps the invariant when the book's author reference resolves to a saved author. |
| `Store.UpdateAuthor` | bookData/index.js:212-215 | An accepted save replaces that one author in place. Books, users and events are unchanged and the invariant holds. |
| `Store.InsertUser` | bookData/index.js:224-226 | An accepted save appends the user and touches nothing else. |
| `Auth.ExtractToken` | bookData/index.js:259-262 | A token is taken exactly when a header is present and its lower-cased form starts with `bearer`. The token is the header from index 7 on, or empty if the header is shorter. |
| `Auth.ExtractTokenRoundTrip` | bookData/index.js:260-262 | `Bearer ` in any letter case, followed by a token, yields that token. |
| `Auth.BuildContext` | bookData/index.js:258-267 | No bearer header gives an anonymous context. A token that fails verification rejects the request. A verified claim yields the user saved under its id, or nobody. |
| `Resolvers.AuthorBookCount` | bookData/index.js:141-143 | An author's book count equals the number of store positions holding a book that refers to that author's id. It is zero exactly when no book refers to that author. |
| `Resolvers.SelectBooks` | bookData/index.js:93-137 | No filters select every book. Genre only selects exactly the books with that genre. Author only selects exactly the first matching author's books. Both filters select exactly the books satisfying both. An author name that does not resolve gives undefined. An empty-string filter counts as absent. |
| `Resolvers.FindAnyIsAll` | bookData/index.js:94-95 | The unfiltered find returns the whole collection in order. |
| `Resolvers.AllBooks` | bookData/index.js:95-128 | Each entry of the result is the selected book at the same position with its author populated: id, title, published year, genres and the saved author record. Under the store invariant every entry carries its author. |
| `Resolvers.BookCount` | bookData/index.js:91 | In a valid store, `bookCount` is the number of distinct saved books. |
| `Resolvers.AuthorCount` | bookData/index.js:92 | In a valid store, `authorCount` is the number of distinct saved authors. |
| `Resolvers.AllAuthors` | bookData/index.js:138 | `allAuthors` returns the saved authors: the same records, as an order-preserving subsequence of the store, as many as `authorCount` reports. In a valid store the author of every book is among them. |
| `Resolvers.Me` | bookData/index.js:88-90 | `me` is null for an anonymous request, not an error, and otherwise the context's user. |
| `Resolvers.SaveBook` | bookData/index.js:166-180 | A failed book save raises a user-input error with the arguments and changes nothing. A successful one appends the book, publishes exactly one event carrying it with the author record, and returns that book. |
| `Resolvers.AddBook` | bookData/index.js:146-181 | Anonymous callers get the authentication error with the state unchanged. An existing author name creates no author. An unknown name appends exactly one author with that name. A failed author save changes nothing. Users are never touched, and any failure leaves books and events untouched. The function states exactly when it succeeds. On success the book is filed under that author, published once and returned. |
| `Resolvers.AddAuthor` | bookData/index.js:182-199 | Anonymous callers get the authentication error with the state unchanged. A refused save raises a user-input error with the arguments. Otherwise the author is appended with the given name and birth year. |
| `Resolvers.EditAuthor` | bookData/index.js:200-222 | Anonymous callers get the authentication error. An unknown name gives null with the state unchanged. Otherwise only the first author with that name gets the new birth year, and it is returned. All other authors and all books, users and events are unchanged. |
| `Resolvers.CreateUser` | bookData/index.js:223-232 | No authentication is needed. A refused save surfaces as the raw store error. Otherwise the user is appended with the given username and favourite genre. |
| `Resolvers.Login` | bookData/index.js:233-246 | The call fails exactly when the user is missing or the password is not `secret`, with one and the same error. On success the token is signed over exactly the found user's username and id. |
| `Api.Dispatch` | bookData/index.js:87-246 | Queries and logins leave the state unchanged. Anonymous `addBook`, `addAuthor` and `editAuthor` fail with the authentication error and change nothing. Only a successful `addBook` publishes, exactly its own book. Every resolver keeps the store invariant. |
| `Store.Publish` | bookData/index.js:179 | Publishing appends exactly the one event to the log, changes no collection and keeps the store invariant. |
| `Api.Handle` | bookData/index.js:255-268 | A bearer token that fails verification rejects the request with the token error, before any resolver runs and with the state unchanged. Queries and logins leave the state unchanged. The event log changes only by one successful `addBook` appending its own book. Every request keeps the store invariant. |
| `Api.ForgedTokenIsRejected` | bookData/index.js:259-263 | Whatever the request, writes included, a present bearer token that does not verify fails the request and changes nothing. Serving it anonymously instead would differ: an accepted `createUser` would save a user. |
| `Api.AnonymousCannotWrite` | bookData/index.js:150-152 | In an anonymous context, `addBook`, `addAuthor` and `editAuthor` fail with the authentication error and change nothing. |
| `Api.NoHeaderIsAnonymous` | bookData/index.js:259-260 | A request without an Authorization header is anonymous. |
| `Api.LoginThenMe` | bookData/index.js:236-264 | If verification inverts signing, presenting a login token as `Bearer <token>` makes `me` the user with the login's username. |
| `Api.AddBookAuthorCount` | bookData/index.js:91-92 | After a successful `addBook`, `bookCount` is one higher. `authorCount` is one higher exactly when the author name was new. |
| `Api.AddBookListsAuthorOnce` | bookData/index.js:154-158 | After a successful `addBook` with a new author name, `allAuthors` lists that name exactly once, at the new author's position. With a known name the listing is unchanged. |
| `Api.AddBookThenGenreQuery` | bookData/index.js:114-117 | After a successful `addBook`, querying any of its genres finds the new book, filed under its author. |
| `Api.AddBookBumpsAuthorBookCount` | bookData/index.js:141-143 | A successful `addBook` adds one to the book count of the author it filed the book under. Every other author's count is unchanged. |
| `Api.EditAuthorIsPersisted` | bookData/index.js:208-215 | After a successful edit, looking the name up again finds the same author with the new birth year. |
| `Client.IncludeAllAppendsFirstSeen` | library-frontend/src/App.js:165-170 | Collecting keeps the existing genres in place. It appends each missing genre exactly once, in first-seen order, and adds nothing already present. |
| `Client.AllGenresCovers` | library-frontend/src/App.js:165-166 | The nested iteration visits every genre of every book. |
| `Client.GatherGenres` | library-frontend/src/App.js:165-171 | The nested `forEach` computes the reference collection. Afterwards every genre of every book is in the list, and new genres are appended in first-seen order. |
| `Client.CollectGenres` | library-frontend/src/App.js:163-175 | The effect runs only when books are loaded and either the list is empty or a book was pushed. When it runs, it collects as above and clears the pushed book. Otherwise nothing changes. |
| `Client.CollectKeepsNoDup` | library-frontend/src/App.js:167-169 | A duplicate-free genre list stays duplicate-free. |
| `Client.UpdateCacheWith` | library-frontend/src/App.js:193-200 | The cached list keeps its entries and gains the added book at the end. |
| `Client.OnBookAdded` | library-frontend/src/App.js:182-189 | On a pushed book the cache gains the book at the end, the genre list is untouched and the book is remembered as the new book. |
| `Client.SelectGenre` | library-frontend/src/App.js:148-150 | `handleGenreSelect()` without an argument selects null; with an argument it selects that genre. |
| `Client.PushedGenresAreListed` | library-frontend/src/App.js:183-189 | Off the books page, where the effect reads the variable-free books entry that the push extends, the next collection after a pushed book lists each of its genres, keeps the earlier genres in place and clears the pushed book. |
| `Client.AllGenresFromBooks` | library-frontend/src/App.js:165-166 | The nested iteration yields only genres some book has. |
| `Client.PushOnBooksPageIsLost` | library-frontend/src/App.js:154-175 | On the books page the effect reads the genre-filtered entry, which the push does not extend. A genre only the pushed book has is then not collected, the pushed book is cleared anyway, and with a non-empty list no later run collects anything until the next push. |
| `Client.BooksQueryArgs` | library-frontend/src/App.js:154 | The books query never filters by author. On the books page it carries exactly the selected genre; on any other page it carries none. |
| `Client.BooksQueryAnswer` | library-frontend/src/App.js:153-155 | Off the books page, or with no genre selected, the server returns every book. Otherwise it returns exactly the books of the selected genre. |
| `Client.ShowAllListsEveryBook` | library-frontend/src/App.js:148-150 | Calling `handleGenreSelect()` with no argument clears the genre, so the books page lists every book. |
| `Recommendations.InGenre` | library-frontend/src/components/Recommendations.js:15 | Every listed book has the favourite genre. Each book occurs in the result exactly as often as in the input when it has the genre, and not at all otherwise. The list is an order-preserving subsequence of the input. |
| `Recommendations.InGenreKeepsEveryMatch` | library-frontend/src/components/Recommendations.js:15 | Every input book with the favourite genre is listed. |
| `Recommendations.Recommend` | library-frontend/src/components/Recommendations.js:5-19 | Nothing is shown when hidden, and a loading notice while the books load. With no current user the view crashes. Otherwise it lists, for exactly that user's favourite genre, the books `InGenre` keeps. |

## Left out

- Database connection, logging, server start-up and the schema type definitions (bookData/index.js:1-84, 255-257, 268-273): I/O and framework wiring.
- JSON Web Token signing and verification (RFC 7519): `sign` and `verify` are parameters. The token carries no expiry.
- The author and user schemas: their files are not part of this model. Their effect on a save is the `Verdict` parameter, which also stands for storage faults.
- The `catch` around the author lookups in `allBooks` (bookData/index.js:107-111, 130-134): lookups in the in-memory store cannot fail.
- GraphQL's non-null checking of resolver results: the `undefined` from `allBooks` is kept as the resolver's value.
- Subscriber fan-out, the `bookAdded` subscription iterator and disconnect clean-up (bookData/index.js:248-252): concurrency and transport. Publishing is modelled as appending to the event log.
- The concurrent duplicate-author race in `addBook`: the model is sequential. Duplicate author names can still arise through `addAuthor`. `findOne` then picks the first.
- Unicode case mapping: `Auth.ToLower` maps ASCII letters only. No other character lower-cases to a letter of `bearer`, so the prefix test is unaffected.
- React rendering, hooks, `localStorage`, timers, alerts and login/logout handling in the client. The Books and EditAuthor components only render.
- `Client.CollectGenres`: the books the effect reads are a parameter. Apollo's cache keying between the variable-free and the genre-filtered books query is not modelled.
- `Client.CollectGenres`: when the books query has failed, `books.data` is undefined and the effect throws (library-frontend/src/App.js:165). The model only receives the books of a query that succeeded.
- `Recommendations.Recommend`: a `me` query still loading and a `me` that is null both make line 15 throw. The model folds both into a missing user, `me == None`, which gives the `Crashed` view. A books query that has failed is not modelled.
- `Auth.ExtractToken`: `substring(7)` counts UTF-16 code units, and the model counts characters. The first six characters of an accepted header spell `bearer`, so the two counts can differ only when the seventh character lies outside the Basic Multilingual Plane. For such a header the source's token starts with a lone low surrogate, and the model's token drops the whole character.
- `Client.PushedGenresAreListed`: holds only off the books page. On the books page the query's `genre` variable selects a separate cache entry that `updateCacheWith` does not touch, so the pushed book's new genres never reach the genre buttons; `Client.PushOnBooksPageIsLost` states that case. Which entry Apollo serves is not computed by the model: each lemma is handed the list the effect reads.

=== FILE: api.dfy ===
/** One request to the library API: the context is built from the
    Authorization header first, then the named query or mutation runs against
    the store. Properties that relate several operations live here. */
module Api {
  import opened Wrappers
  import opened Store
  import opened Auth
  import R = Resolvers
  import Seqs

  datatype Request =
    | BookCount
    | AuthorCount
    | AllBooks(allBooks: R.AllBooksArgs)
    | AllAuthors
    | Me
    | AuthorBookCount(root: Author)
    | AddBook(addBook: R.AddBookArgs)
    | AddAuthor(addAuthor: R.AddAuthorArgs)
    | EditAuthor(editAuthor: R.EditAuthorArgs)
    | CreateUser(createUser: R.CreateUserArgs)
    | Login(login: R.LoginArgs)

  datatype Value =
    | Count(n: nat)
    | BookList(books: Option<seq<BookView>>)
    | AuthorList(authors: seq<Author>)
    | MaybeUser(user: Option<User>)
    | MaybeAuthor(author: Option<Author>)
    | SavedBook(book: BookView)
    | SavedAuthor(saved: Author)
    | SavedUser(savedUser: User)
    | IssuedToken(token: R.Token)

  /** What the request does not decide itself: token signing and
      verification, and the outcome of each kind of save. */
  datatype Env = Env(
    sign: Claim -> string,
    verify: string -> Option<Claim>,
    authorVerdict: Verdict,
    bookVerdict: Verdict,
    userVerdict: Verdict)

  predicate IsWrite(req: Request) {
    req.AddBook? || req.AddAuthor? || req.EditAuthor? || req.CreateUser?
  }

  /** Run one resolver in a built context. Only writes change the state,
      author and book writes need a user, and only a successful `addBook`
      publishes, exactly its own book. */
  function Dispatch(st: State, ctx: Context, req: Request, env: Env): (r: R.Reply<Value>)
    ensures !IsWrite(req) ==> r.state == st
    ensures ctx.currentUser.None? && (req.AddBook? || req.AddAuthor? || req.EditAuthor?) ==>
              r == R.Reply(Failure(R.AuthenticationError(R.NotAuthenticated)), st)
    ensures r.state.events != st.events ==>
              req.AddBook? && r.result.Success? && r.result.value.SavedBook?
              && r.state.events == st.events + [BookAdded(r.result.value.book)]
    ensures Valid(st) ==> Valid(r.state)
  {
    match req
    case BookCount => R.Reply(Success(Count(R.BookCount(st))), st)
    case AuthorCount => R.Reply(Success(Count(R.AuthorCount(st))), st)
    case AllBooks(args) => R.Reply(Success(BookList(R.AllBooks(st, args))), st)
    case AllAuthors => R.Reply(Success(AuthorList(R.AllAuthors(st))), st)
    case Me => R.Reply(Success(MaybeUser(R.Me(ctx))), st)
    case AuthorBookCount(a) => R.Reply(Success(Count(R.AuthorBookCount(st, a))), st)
    case AddBook(args) =>
      var rep := R.AddBook(st, ctx, args, env.authorVerdict, env.bookVerdict);
      (match rep.result
       case Success(b) => R.Reply(Success(SavedBook(b)), rep.state)
       case Failure(e) => R.Reply(Failure(e), rep.state))
    case AddAuthor(args) =>
      var rep := R.AddAuthor(st, ctx, args, env.authorVerdict);
      (match rep.result
       case Success(a) => R.Reply(Success(SavedAuthor(a)), rep.state)
       case Failure(e) => R.Reply(Failure(e), rep.state))
    case EditAuthor(args) =>
      var rep := R.EditAuthor(st, ctx, args, env.authorVerdict);
      (match rep.result
       case Success(a) => R.Reply(Success(MaybeAuthor(a)), rep.state)
       case Failure(e) => R.Reply(Failure(e), rep.state))
    case CreateUser(args) =>
      var rep := R.CreateUser(st, args, env.userVerdict);
      (match rep.result
       case Success(u) => R.Reply(Success(SavedUser(u)), rep.state)
       case Failure(e) => R.Reply(Failure(e), rep.state))
    case Login(args) =>
      match R.Login(st, args, env.sign)
      case Success(t) => R.Reply(Success(IssuedToken(t)), st)
      case Failure(e) => R.Reply(Failure(e), st)
  }

  /** Serve one request: context first, then the resolver. A token that does
      not verify rejects the request before any resolver runs. */
  function Handle(st: State, header: Option<string>, req: Request, env: Env): (r: R.Reply<Value>)
    ensures BuildContext(st.users, header, env.verify).Failure? ==>
              r == R.Reply(Failure(R.ContextRejected(InvalidToken)), st)
    ensures !IsWrite(req) ==> r.state == st
    ensures r.state.events != st.events ==>
              req.AddBook? && r.result.Success? && r.result.value.SavedBook?
              && r.state.events == st.events + [BookAdded(r.result.value.book)]
    ensures Valid(st) ==> Valid(r.state)
  {
    match BuildContext(st.users, header, env.verify)
    case Failure(e) => R.Reply(Failure(R.ContextRejected(e)), st)
    case Success(ctx) => Dispatch(st, ctx, req, env)
  }

  /** Without a resolved user, every author or book write fails with the
      authentication error and changes nothing; in particular nothing is
      published. */
  lemma AnonymousCannotWrite(st: State, header: Option<string>, req: Request, env: Env)
    requires req.AddBook? || req.AddAuthor? || req.EditAuthor?
    requires BuildContext(st.users, header, env.verify) == Success(Context(None))
    ensures Handle(st, header, req, env) == R.Reply(Failure(R.AuthenticationError(R.NotAuthenticated)), st)
  {
  }

  /** A bearer token that does not verify rejects the whole request: no
      resolver runs, whatever the request, writes included, and the store is
      unchanged. It is not served as an anonymous request, which for an
      accepted `createUser` would save a user. */
  lemma ForgedTokenIsRejected(st: State, header: Option<string>, req: Request, env: Env)
    requires ExtractToken(header).Some? && env.verify(ExtractToken(header).value).None?
    ensures Handle(st, header, req, env).state == st
    ensures Handle(st, header, req, env).result == Failure(R.ContextRejected(InvalidToken))
    // serving it anonymously would differ: an accepted `createUser` saves
    ensures req.CreateUser? && env.userVerdict.Accept? ==>
              Dispatch(st, Context(None), req, env).state != Handle(st, header, req, env).state
  {
  }

  /** A request without an Authorization header is anonymous. */
  lemma NoHeaderIsAnonymous(users: seq<User>, verify: string -> Option<Claim>)
    ensures BuildContext(users, None, verify) == Success(Context(None))
  {
  }

  /** Logging in and presenting the token as a bearer credential makes the
      logged-in user the request's `me`, provided verification inverts
      signing and user ids are distinct. */
  lemma LoginThenMe(st: State, args: R.LoginArgs, env: Env)
    requires Valid(st)
    requires forall c :: env.verify(env.sign(c)) == Some(c)
    requires R.Login(st, args, env.sign).Success?
    ensures
      var token := R.Login(st, args, env.sign).value.value;
      var reply := Handle(st, Some("Bearer " + token), Me, env);
      && reply.result.Success?
      && reply.result.value.MaybeUser?
      && reply.result.value.user.Some?
      && reply.result.value.user.value.username == args.username
  {
  }

  /** `authorCount` grows by one exactly when `addBook` created the author. */
  lemma AddBookAuthorCount(st: State, ctx: Context, args: R.AddBookArgs, av: Verdict, bv: Verdict)
    requires R.AddBook(st, ctx, args, av, bv).result.Success?
    ensures var after := R.AddBook(st, ctx, args, av, bv).state;
      && R.BookCount(after) == R.BookCount(st) + 1
      && R.AuthorCount(after) == R.AuthorCount(st) + (if AuthorNamed(st.authors, args.author).None? then 1 else 0)
  {
  }

  /** After a successful `addBook` that created its author, `allAuthors`
      lists that name at exactly one position, the new author's; when the
      author already existed the listing is unchanged. */
  lemma {:induction false} AddBookListsAuthorOnce(st: State, ctx: Context, args: R.AddBookArgs, av: Verdict, bv: Verdict)
    requires R.AddBook(st, ctx, args, av, bv).result.Success?
    ensures
      var listed := R.AllAuthors(R.AddBook(st, ctx, args, av, bv).state);
      AuthorNamed(st.authors, args.author).None? ==>
        (set j: nat | j < |listed| && listed[j].name == args.author) == {|st.authors|}
    ensures AuthorNamed(st.authors, args.author).Some? ==>
      R.AllAuthors(R.AddBook(st, ctx, args, av, bv).state) == R.AllAuthors(st)
  {
    var after := R.AddBook(st, ctx, args, av, bv).state;
    var listed := R.AllAuthors(after);
    Seqs.SubseqLength(listed, after.authors);
    assert listed == after.authors;
    Seqs.SubseqLength(R.AllAuthors(st), st.authors);
  }

  /** After a successful `addBook`, querying any of its genres finds the new
      book, with the author it was filed under. */
  lemma AddBookThenGenreQuery(st: State, ctx: Context, args: R.AddBookArgs, av: Verdict, bv: Verdict, genre: string)
    requires R.AddBook(st, ctx, args, av, bv).result.Success?
    requires genre != "" && genre in R.GenresOrEmpty(args.genres)
    ensures
      var rep := R.AddBook(st, ctx, args, av, bv);
      var found := R.SelectBooks(rep.state, R.AllBooksArgs(None, Some(genre)));
      && found.Some?
      && exists b :: b in found.value && b.id == rep.result.value.id
                     && b.doc.author == Some(rep.result.value.author.value.id)
  {
  }

  /** Counting is recomputed from the books: `addBook` adds one to the count
      of the author it files the book under and leaves every other author's
      count alone. */
  lemma AddBookBumpsAuthorBookCount(st: State, ctx: Context, args: R.AddBookArgs, av: Verdict, bv: Verdict, x: Author)
    requires R.AddBook(st, ctx, args, av, bv).result.Success?
    ensures
      var rep := R.AddBook(st, ctx, args, av, bv);
      R.AuthorBookCount(rep.state, x)
        == R.AuthorBookCount(st, x) + (if x.id == rep.result.value.author.value.id then 1 else 0)
  {
    var rep := R.AddBook(st, ctx, args, av, bv);
    var a := R.AuthorFor(st, args.author);
    var b := rep.state.books[|st.books|];
    assert rep.state.books == st.books + [b];
    FindSnoc(st.books, b, AuthorIs(x.id));
  }

  /** A successful `editAuthor` is persisted: looking the name up again finds
      the same author, now with the new birth year. */
  lemma EditAuthorIsPersisted(st: State, ctx: Context, args: R.EditAuthorArgs, v: Verdict)
    requires ctx.currentUser.Some? && AuthorNamed(st.authors, args.name).Some? && v.Accept?
    ensures
      var after := R.EditAuthor(st, ctx, args, v).state;
      && AuthorNamed(after.authors, args.name) == AuthorNamed(st.authors, args.name)
      && after.authors[AuthorNamed(after.authors, args.name).value].born == Some(args.setBornTo)
  {
  }
}

=== FILE: auth.dfy ===
/** The request context (bookData/index.js, the server's `context`
    function): an Authorization header whose lower-cased form starts with
    "bearer" carries a token from index 7 on; the token's claim names a user
    id, and the user with that id becomes `currentUser`.

    Token signing and verification are not modelled: `sign` and `verify` are
    parameters, `verify` being partial (None where verification throws). */
module Auth {
  import opened Wrappers
  import opened Store

  /** The claim a login token carries. */
  datatype Claim = Claim(username: string, id: Id)

  /** What every resolver of one request sees. */
  datatype Context = Context(currentUser: Option<User>)

  /** The request fails before any resolver runs. */
  datatype AuthError = InvalidToken

  const Scheme := "bearer"

  /** Where the token starts: after "bearer" and one separator character. */
  const TokenOffset: nat := 7

  /** Lower-casing of ASCII letters; other characters never lower-case to
      one of the letters of "bearer", so this is all the prefix test needs. */
  function ToLower(c: char): char {
    if 'A' <= c <= 'Z' then (c as int + 32) as char else c
  }

  predicate StartsWithBearer(header: string) {
    |header| >= |Scheme| && forall i :: 0 <= i < |Scheme| ==> ToLower(header[i]) == Scheme[i]
  }

  /** JavaScript's `substring(from)`: empty when `from` is past the end. */
  function Substring(s: string, from: nat): string {
    if from <= |s| then s[from..] else ""
  }

  /** The token of a request, if its header announces one. An absent or
      empty header carries none. */
  function ExtractToken(header: Option<string>): (r: Option<string>)
    ensures r.Some? <==> header.Some? && StartsWithBearer(header.value)
    ensures r.Some? && |header.value| >= TokenOffset ==> header.value == header.value[..TokenOffset] + r.value
    ensures r.Some? && |header.value| < TokenOffset ==> r.value == ""
  {
    match header
    case None => None
    case Some(h) =>
      if StartsWithBearer(h) then Some(Substring(h, TokenOffset)) else None
  }

  /** Any spelling of "Bearer " followed by a token yields that token. */
  lemma ExtractTokenRoundTrip(scheme: string, token: string)
    requires |scheme| == TokenOffset && StartsWithBearer(scheme)
    ensures ExtractToken(Some(scheme + token)) == Some(token)
  {
  }

  /** Build the context of one request. No bearer header: anonymous. A token
      that does not verify: the whole request fails. Otherwise the user whose
      id the claim names, or nobody when that id is not saved. */
  function BuildContext(users: seq<User>, header: Option<string>, verify: string -> Option<Claim>): (r: Result<Context, AuthError>)
    ensures ExtractToken(header).None? ==> r == Success(Context(None))
    ensures ExtractToken(header).Some? && verify(ExtractToken(header).value).None? ==> r == Failure(InvalidToken)
    ensures ExtractToken(header).Some? && verify(ExtractToken(header).value).Some? ==>
              && r.Success?
              && (r.value.currentUser.Some? <==> verify(ExtractToken(header).value).value.id in UserIds(users))
              && (r.value.currentUser.Some? ==>
                    r.value.currentUser.value in users
                    && r.value.currentUser.value.id == verify(ExtractToken(header).value).value.id)
  {
    match ExtractToken(header)
    case None => Success(Context(None))
    case Some(token) =>
      match verify(token)
      case None => Failure(InvalidToken)
      case Some(claim) =>
        match UserWithId(users, claim.id)
        case None => Success(Context(None))
        case Some(i) => Success(Context(Some(users[i])))
  }
}

=== FILE: book_schema.dfy ===
/** The book document schema (bookData/models/book.js): which candidate
    documents the store accepts, given the documents already saved.

    Only `title` is constrained: it is required, at least two characters
    long, and unique over the collection. `published` is an optional number,
    `author` an optional reference to an author id (a reference is not a
    constraint), and `genres` a possibly empty list of strings. */
module BookSchema {
  import opened Wrappers

  /** Document identifiers (MongoDB ObjectIds), drawn from a counter. */
  type ObjectId = nat

  /** A candidate or stored book document, as the schema sees it. */
  datatype BookDoc = BookDoc(
    title: Option<string>,
    published: Option<int>,
    author: Option<ObjectId>,
    genres: seq<string>)

  const TitleMinLength: nat := 2

  /** JavaScript's `.length`: UTF-16 code units, two for a character beyond
      the Basic Multilingual Plane. This is what `minlength` measures. */
  function Utf16Length(s: string): (n: nat)
    ensures |s| <= n <= 2 * |s|
    ensures n == |s| <==> forall i :: 0 <= i < |s| ==> (s[i] as int) < 0x1_0000
  {
    if s == [] then 0
    else (if (s[0] as int) < 0x1_0000 then 1 else 2) + Utf16Length(s[1..])
  }

  /** The first constraint a document breaks. Required and minimum length are
      checked before the unique index is consulted. */
  datatype SchemaError = TitleRequired | TitleTooShort | DuplicateTitle

  /** A required string is missing when absent or empty. */
  predicate TitlePresent(title: Option<string>) {
    title.Some? && title.value != ""
  }

  /** Some saved document already carries this title. */
  predicate TitleTaken(title: Option<string>, existing: seq<BookDoc>) {
    exists i :: 0 <= i < |existing| && existing[i].title == title
  }

  /** The write predicate: `doc` may be saved next to `existing`. */
  predicate Acceptable(doc: BookDoc, existing: seq<BookDoc>) {
    && doc.title.Some?
    && Utf16Length(doc.title.value) >= TitleMinLength
    && forall i :: 0 <= i < |existing| ==> existing[i].title != doc.title
  }

  /** Schema validation as the store runs it on save: the first violated
      constraint, or None when the document is accepted. */
  function Validate(doc: BookDoc, existing: seq<BookDoc>): (r: Option<SchemaError>)
    ensures r == Some(TitleRequired) <==> !TitlePresent(doc.title)
    ensures r == Some(TitleTooShort) <==>
              TitlePresent(doc.title) && Utf16Length(doc.title.value) < TitleMinLength
    ensures r == Some(DuplicateTitle) <==>
              doc.title.Some? && Utf16Length(doc.title.value) >= TitleMinLength && TitleTaken(doc.title, existing)
    ensures r.None? <==> Acceptable(doc, existing)
  {
    if !TitlePresent(doc.title) then Some(TitleRequired)
    else if Utf16Length(doc.title.value) < TitleMinLength then Some(TitleTooShort)
    else if TitleTaken(doc.title, existing) then Some(DuplicateTitle)
    else None
  }

  /** A title of one character outside the Basic Multilingual Plane is two
      code units long, so it passes the minimum length. */
  lemma AstralLetterIsLongEnough()
    ensures Validate(BookDoc(Some("\U{1D538}"), None, None, []), []) == None
  {
    assert Utf16Length("\U{1D538}") == 2;
  }

  /** Only the title decides validity: published year, author reference and
      genres are never constrained. */
  lemma OnlyTitleMatters(d1: BookDoc, d2: BookDoc, existing: seq<BookDoc>)
    requires d1.title == d2.title
    ensures Validate(d1, existing) == Validate(d2, existing)
    ensures Acceptable(d1, existing) <==> Acceptable(d2, existing)
  {
  }

  /** Validity only depends on the titles already taken. */
  lemma ExistingTitlesDecide(doc: BookDoc, e1: seq<BookDoc>, e2: seq<BookDoc>)
    requires |e1| == |e2|
    requires forall i :: 0 <= i < |e1| ==> e1[i].title == e2[i].title
    ensures Validate(doc, e1) == Validate(doc, e2)
  {
  }
}

=== FILE: client.dfy ===
/** The list logic of the library client (library-frontend/src/App.js):
    collecting the genre buttons from the loaded books, appending a book
    pushed by the "book added" subscription to the cached list, and choosing
    the variables of the books query. Rendering and React state plumbing are
    not modelled; each piece of state is a value passed in and returned. */
module Client {
  import opened Wrappers
  import Seqs
  import Store
  import R = Resolvers

  /** A book as the client's queries deliver it (the BookDetails fragment). */
  datatype ClientBook = ClientBook(id: string, title: string, published: int, authorName: string, genres: seq<string>)

  /** The genre list and the most recent book pushed by the subscription. */
  datatype GenreState = GenreState(genres: seq<string>, newBook: Option<ClientBook>)

  /** Push `g` unless the list already includes it. */
  function Include(genres: seq<string>, g: string): seq<string> {
    if g in genres then genres else genres + [g]
  }

  /** Include each of `gs` in turn. */
  function IncludeAll(genres: seq<string>, gs: seq<string>): seq<string>
    decreases |gs|
  {
    if gs == [] then genres else Include(IncludeAll(genres, gs[..|gs| - 1]), gs[|gs| - 1])
  }

  /** Every genre of every book, in book order and then genre order. */
  function AllGenres(books: seq<ClientBook>): seq<string>
    decreases |books|
  {
    if books == [] then [] else AllGenres(books[..|books| - 1]) + books[|books| - 1].genres
  }

  /** `r` is `before` followed by the genres of `gs` that `before` lacks, each once,
      in the order of their first occurrence in `gs`. */
  predicate AppendsFirstSeen(before: seq<string>, gs: seq<string>, r: seq<string>) {
    && |before| <= |r| && r[..|before|] == before
    && (forall k :: 0 <= k < |gs| ==> gs[k] in r)
    && (forall i :: |before| <= i < |r| ==> r[i] !in before && r[i] in gs)
    && (forall i, j :: |before| <= i < j < |r| ==> r[i] != r[j])
    && (forall i, j :: |before| <= i < j < |r| ==>
          Seqs.FirstIndex(gs, r[i]).value < Seqs.FirstIndex(gs, r[j]).value)
  }

  /** The reference computation appends new genres in first-seen order. */
  lemma {:induction false} IncludeAllAppendsFirstSeen(before: seq<string>, gs: seq<string>)
    ensures AppendsFirstSeen(before, gs, IncludeAll(before, gs))
    decreases |gs|
  {
    if gs != [] {
      var p := gs[..|gs| - 1];
      var x := gs[|gs| - 1];
      assert gs == p + [x];
      var r0 := IncludeAll(before, p);
      IncludeAllAppendsFirstSeen(before, p);
      var r := IncludeAll(before, gs);
      assert r == Include(r0, x);
      forall y | y in p
        ensures Seqs.FirstIndex(gs, y) == Seqs.FirstIndex(p, y)
      {
        Seqs.FirstIndexSnoc(p, x, y);
      }
      forall k | 0 <= k < |gs|
        ensures gs[k] in r
      {
        if k < |p| {
          assert gs[k] == p[k];
        }
      }
      if x !in r0 {
        assert r == r0 + [x];
        assert r[..|before|] == r0[..|before|];
        assert x !in before;
        assert x !in p;
        Seqs.FirstIndexIs(gs, x, |p|);
        forall i, j | |before| <= i < j < |r|
          ensures Seqs.FirstIndex(gs, r[i]).value < Seqs.FirstIndex(gs, r[j]).value
        {
          if j == |r0| {
            assert r[i] == r0[i] && r0[i] in p;
            assert Seqs.FirstIndex(p, r0[i]).value < |p|;
          } else {
            assert r[i] == r0[i] && r[j] == r0[j];
          }
        }
      }
    }
  }

  /** Every genre of every book occurs in the flattened list. */
  lemma {:induction false} AllGenresCovers(books: seq<ClientBook>, i: nat, k: nat)
    requires i < |books| && k < |books[i].genres|
    ensures books[i].genres[k] in AllGenres(books)
    decreases |books|
  {
    var last := |books| - 1;
    if i == last {
      assert AllGenres(books)[|AllGenres(books[..last])| + k] == books[i].genres[k];
    } else {
      assert books[..last][i] == books[i];
      AllGenresCovers(books[..last], i, k);
    }
  }

  /** The nested `forEach` over the loaded books and their genres, pushing
      each genre the list does not yet include. */
  method GatherGenres(genres: seq<string>, books: seq<ClientBook>) returns (r: seq<string>)
    ensures r == IncludeAll(genres, AllGenres(books))
    ensures AppendsFirstSeen(genres, AllGenres(books), r)
    ensures forall i, k :: 0 <= i < |books| && 0 <= k < |books[i].genres| ==> books[i].genres[k] in r
  {
    r := genres;
    var i := 0;
    while i < |books|
      invariant 0 <= i <= |books|
      invariant r == IncludeAll(genres, AllGenres(books[..i]))
    {
      var gs := books[i].genres;
      var j := 0;
      assert AllGenres(books[..i]) + gs[..j] == AllGenres(books[..i]);
      while j < |gs|
        invariant 0 <= j <= |gs|
        invariant r == IncludeAll(genres, AllGenres(books[..i]) + gs[..j])
      {
        var done := AllGenres(books[..i]) + gs[..j];
        assert (done + [gs[j]])[..|done|] == done;
        assert AllGenres(books[..i]) + gs[..j + 1] == done + [gs[j]];
        if gs[j] !in r {
          r := r + [gs[j]];
        }
        j := j + 1;
      }
      assert gs[..j] == gs;
      assert books[..i + 1][..i] == books[..i];
      i := i + 1;
    }
    assert books[..i] == books;
    IncludeAllAppendsFirstSeen(genres, AllGenres(books));
    forall i, k | 0 <= i < |books| && 0 <= k < |books[i].genres|
      ensures books[i].genres[k] in r
    {
      AllGenresCovers(books, i, k);
    }
  }

  /** Whether the genre-collecting effect runs: the books are loaded and
      either no genre is known yet or a book was just pushed. */
  predicate ShouldCollect(loading: bool, s: GenreState) {
    !loading && (|s.genres| == 0 || s.newBook.Some?)
  }

  /** The genre-collecting effect: when it runs, the list gains every genre
      of the loaded books it lacked and the pushed book is cleared. */
  function CollectGenres(loading: bool, s: GenreState, books: seq<ClientBook>): (r: GenreState)
    ensures !ShouldCollect(loading, s) ==> r == s
    ensures ShouldCollect(loading, s) ==> r.newBook.None? && AppendsFirstSeen(s.genres, AllGenres(books), r.genres)
    ensures ShouldCollect(loading, s) ==>
              forall i, k :: 0 <= i < |books| && 0 <= k < |books[i].genres| ==> books[i].genres[k] in r.genres
  {
    if ShouldCollect(loading, s) then
      IncludeAllAppendsFirstSeen(s.genres, AllGenres(books));
      var r := GenreState(IncludeAll(s.genres, AllGenres(books)), None);
      assert forall i, k :: 0 <= i < |books| && 0 <= k < |books[i].genres| ==> books[i].genres[k] in r.genres by {
        forall i, k | 0 <= i < |books| && 0 <= k < |books[i].genres|
          ensures books[i].genres[k] in r.genres
        {
          AllGenresCovers(books, i, k);
        }
      }
      r
    else
      s
  }

  /** Collecting keeps a duplicate-free genre list duplicate-free. */
  lemma CollectKeepsNoDup(loading: bool, s: GenreState, books: seq<ClientBook>)
    requires Seqs.NoDup(s.genres)
    ensures Seqs.NoDup(CollectGenres(loading, s, books).genres)
  {
  }

  /** `updateCacheWith`: the cached book list with the pushed book appended. */
  function UpdateCacheWith(cached: seq<ClientBook>, added: ClientBook): (r: seq<ClientBook>)
    ensures |r| == |cached| + 1
    ensures r[..|cached|] == cached && r[|cached|] == added
  {
    cached + [added]
  }

  /** The subscription handler: cache the pushed book and remember it. */
  function OnBookAdded(cached: seq<ClientBook>, s: GenreState, added: ClientBook): (r: (seq<ClientBook>, GenreState))
    ensures |r.0| == |cached| + 1 && r.0[..|cached|] == cached && r.0[|cached|] == added
    ensures r.1.genres == s.genres && r.1.newBook == Some(added)
  {
    (UpdateCacheWith(cached, added), s.(newBook := Some(added)))
  }

  /** After a pushed book reaches the cache, the next collection over the
      cached list lists each of its genres, keeps the existing genres in place
      and clears the pushed book. The cached list here is the variable-free
      books entry that `updateCacheWith` writes, which is the one the effect
      reads only off the books page. */
  lemma PushedGenresAreListed(cached: seq<ClientBook>, s: GenreState, added: ClientBook)
    ensures
      var (books, s') := OnBookAdded(cached, s, added);
      var r := CollectGenres(false, s', books);
      && r.newBook.None?
      && r.genres[..|s.genres|] == s.genres
      && forall g :: g in added.genres ==> g in r.genres
  {
  }

  /** A genre occurs in the flattening only if some book has it. */
  lemma {:induction false} AllGenresFromBooks(books: seq<ClientBook>, g: string)
    requires forall b :: b in books ==> g !in b.genres
    ensures g !in AllGenres(books)
    decreases |books|
  {
    if books != [] {
      var p := books[..|books| - 1];
      assert forall b :: b in p ==> b in books;
      AllGenresFromBooks(p, g);
    }
  }

  /** On the books page the books query carries the genre variable, so the
      effect reads a cache entry of its own that the push did not extend.
      Then a genre only the pushed book has is not collected, the pushed book
      is cleared all the same, and once the list is non-empty no later run of
      the effect collects anything until another book is pushed. */
  lemma PushOnBooksPageIsLost(s: GenreState, added: ClientBook, entry: seq<ClientBook>, g: string)
    requires g in added.genres && g !in s.genres
    requires forall b :: b in entry ==> g !in b.genres
    ensures
      var r := CollectGenres(false, s.(newBook := Some(added)), entry);
      && r.newBook.None?
      && g !in r.genres
      && (r.genres != [] ==> forall later :: CollectGenres(false, r, later) == r)
  {
    AllGenresFromBooks(entry, g);
  }

  /** How `handleGenreSelect` was called: with no argument, or with one. */
  datatype GenreChoice = NoArgument | Argument(genre: Option<string>)

  /** `handleGenreSelect`: no argument selects no genre. */
  function SelectGenre(choice: GenreChoice): (r: Option<string>)
    ensures choice.NoArgument? ==> r.None?
    ensures choice.Argument? ==> r == choice.genre
  {
    match choice
    case NoArgument => None
    case Argument(g) => g
  }

  /** The variables of the books query: the genre only on the books page. */
  function BooksQueryArgs(page: string, genre: Option<string>): (args: R.AllBooksArgs)
    ensures args.author.None?
    ensures page == "books" ==> args.genre == genre
    ensures page != "books" ==> args.genre.None?
  {
    if page == "books" then R.AllBooksArgs(None, genre) else R.AllBooksArgs(None, None)
  }

  /** What the server answers to the client's books query: every book off the
      books page, or when no genre is selected; only that genre's books when
      one is. */
  lemma BooksQueryAnswer(st: Store.State, page: string, choice: GenreChoice)
    ensures
      var genre := SelectGenre(choice);
      var found := R.SelectBooks(st, BooksQueryArgs(page, genre));
      && found.Some?
      && (page != "books" || !R.Given(genre) ==> found.value == st.books)
      && (page == "books" && R.Given(genre) ==>
            forall b :: b in found.value <==> b in st.books && genre.value in b.doc.genres)
  {
  }

  /** "show all" on the books page asks the server for every book. */
  lemma ShowAllListsEveryBook(st: Store.State)
    ensures R.SelectBooks(st, BooksQueryArgs("books", SelectGenre(NoArgument))) == Some(st.books)
  {
  }
}

=== FILE: recommendations.dfy ===
/** The recommendations view (library-frontend/src/components/
    Recommendations.js): nothing when hidden, a loading notice while the
    books load, otherwise the loaded books in the user's favourite genre. The
    favourite genre is read from the `me` query, which may not have delivered
    a user yet; reading it then throws. */
module Recommendations {
  import Seqs
  import opened Wrappers
  import opened Client

  datatype View =
    | Hidden
    | Loading
      /** reading `user.data.me.favoriteGenre` threw: `me` is null or not loaded */
    | Crashed
    | Listing(favorite: string, books: seq<ClientBook>)

  /** `allBooks.filter(b => b.genres.includes(favorite))`. */
  function InGenre(books: seq<ClientBook>, genre: string): (r: seq<ClientBook>)
    ensures forall b :: b in r ==> genre in b.genres
    ensures forall b :: multiset(r)[b] == if genre in b.genres then multiset(books)[b] else 0
    ensures Seqs.IsSubseq(r, books)
    decreases |books|
  {
    if books == [] then []
    else
      assert books == [books[0]] + books[1..];
      if genre in books[0].genres then [books[0]] + InGenre(books[1..], genre)
      else InGenre(books[1..], genre)
  }

  /** Every book of the favourite genre is listed, each as often as it was
      loaded. */
  lemma InGenreKeepsEveryMatch(books: seq<ClientBook>, genre: string, b: ClientBook)
    requires b in books && genre in b.genres
    ensures b in InGenre(books, genre)
  {
    assert multiset(InGenre(books, genre))[b] == multiset(books)[b];
  }

  /** The component: hidden unless shown, a notice while the books load, a
      crash when no user is available, else the favourite-genre books in the
      order the query returned them. */
  function Recommend(show: bool, loading: bool, books: seq<ClientBook>, me: Option<string>): (v: View)
    ensures !show ==> v == Hidden
    ensures show && loading ==> v == Loading
    ensures show && !loading && me.None? ==> v == Crashed
    ensures v.Listing? <==> show && !loading && me.Some?
    ensures v.Listing? ==> v.favorite == me.value
    ensures v.Listing? ==>
              && (forall b :: b in v.books ==> v.favorite in b.genres)
              && (forall b :: multiset(v.books)[b] == if v.favorite in b.genres then multiset(books)[b] else 0)
              && Seqs.IsSubseq(v.books, books)
  {
    if !show then Hidden
    else if loading then Loading
    else
      match me
      case None => Crashed
      case Some(favorite) => Listing(favorite, InGenre(books, favorite))
  }
}

=== FILE: resolvers.dfy ===
/** The resolver set of the library API (bookData/index.js, `resolvers`).
    Each resolver is a pure function of the store state, the request context
    and its arguments; a write returns its reply together with the new state.
    Optional string arguments follow JavaScript truthiness: an empty string
    counts as absent. */
module Resolvers {
  import opened Wrappers
  import opened Store
  import opened Auth
  import BookSchema

  datatype AllBooksArgs = AllBooksArgs(author: Option<string>, genre: Option<string>)
  datatype AddBookArgs = AddBookArgs(title: string, published: int, author: string, genres: Option<seq<string>>)
  datatype AddAuthorArgs = AddAuthorArgs(name: string, born: Option<int>)
  datatype EditAuthorArgs = EditAuthorArgs(name: string, setBornTo: int)
  datatype CreateUserArgs = CreateUserArgs(username: string, favoriteGenre: string)
  datatype LoginArgs = LoginArgs(username: string, password: string)

  /** The arguments a user-input error hands back as `invalidArgs`. */
  datatype Args =
    | OfAddBook(addBook: AddBookArgs)
    | OfAddAuthor(addAuthor: AddAuthorArgs)
    | OfEditAuthor(editAuthor: EditAuthorArgs)

  /** Why a user-input error was raised: a store rejection, or a fixed text. */
  datatype Reason = Rejected(cause: StoreError) | Message(text: string)

  datatype Error =
    | AuthenticationError(message: string)
    | UserInputError(reason: Reason, invalidArgs: Option<Args>)
      /** a store error that reaches the caller unwrapped */
    | SaveFailed(cause: StoreError)
      /** the request's context could not be built */
    | ContextRejected(authError: AuthError)

  datatype Token = Token(value: string)

  /** A resolver's reply and the state after it. */
  datatype Reply<+T> = Reply(result: Result<T, Error>, state: State)

  const NotAuthenticated := "not authenticated"
  const WrongCredentials := "wrong credentials"

  /** The one password every user logs in with. */
  const Secret := "secret"

  /** JavaScript truthiness of an optional string argument. */
  predicate Given(s: Option<string>) {
    s.Some? && s.value != ""
  }

  /** The author-id filter of `allBooks`, when the author name resolves. */
  function AuthorFilterId(st: State, name: string): Option<Id> {
    match AuthorNamed(st.authors, name)
    case None => None
    case Some(i) => Some(st.authors[i].id)
  }

  // ---------------------------------------------------------------- queries

  /** `bookCount`: `countDocuments()` on the books. In a valid store this is
      the number of distinct saved books. */
  function BookCount(st: State): (n: nat)
    ensures Valid(st) ==> n == |Seqs.Elements(st.books)|
  {
    assert Valid(st) ==> |Seqs.Elements(st.books)| == |st.books| by {
      if Valid(st) { ValidCollectionsAreSets(st); }
    }
    |st.books|
  }

  /** `authorCount`: `countDocuments()` on the authors. In a valid store this
      is the number of distinct saved authors. */
  function AuthorCount(st: State): (n: nat)
    ensures Valid(st) ==> n == |Seqs.Elements(st.authors)|
  {
    assert Valid(st) ==> |Seqs.Elements(st.authors)| == |st.authors| by {
      if Valid(st) { ValidCollectionsAreSets(st); }
    }
    |st.authors|
  }

  /** `Author.bookCount`: how many saved books refer to this author. */
  function AuthorBookCount(st: State, a: Author): (n: nat)
    ensures n == |set i: nat | i < |st.books| && st.books[i].doc.author == Some(a.id)|
    ensures n == 0 <==> forall b :: b in st.books ==> b.doc.author != Some(a.id)
  {
    var found := Find(st.books, AuthorIs(a.id));
    assert found != [] ==> found[0] in found;
    FindCountsMatches(st.books, AuthorIs(a.id));
    assert MatchingPositions(st.books, AuthorIs(a.id))
        == set i: nat | i < |st.books| && st.books[i].doc.author == Some(a.id);
    |found|
  }

  /** Which books `allBooks` selects; None when an author name was given and
      does not resolve (the resolver then falls off its end and yields
      undefined rather than an error). */
  function SelectBooks(st: State, args: AllBooksArgs): (r: Option<seq<Book>>)
    ensures !Given(args.author) && !Given(args.genre) ==> r == Some(st.books)
    ensures Given(args.author) && AuthorNamed(st.authors, args.author.value).None? ==> r.None?
    ensures !Given(args.author) && Given(args.genre) ==>
              r.Some? && forall b :: b in r.value <==> b in st.books && args.genre.value in b.doc.genres
    ensures Given(args.author) && !Given(args.genre) && AuthorNamed(st.authors, args.author.value).Some? ==>
              var a := st.authors[AuthorNamed(st.authors, args.author.value).value];
              r.Some? && forall b :: b in r.value <==> b in st.books && b.doc.author == Some(a.id)
    ensures Given(args.author) && Given(args.genre) && AuthorNamed(st.authors, args.author.value).Some? ==>
              var a := st.authors[AuthorNamed(st.authors, args.author.value).value];
              r.Some? && forall b :: b in r.value <==>
                b in st.books && b.doc.author == Some(a.id) && args.genre.value in b.doc.genres
    ensures r.Some? ==> Seqs.IsSubseq(r.value, st.books)
  {
    if !Given(args.author) && !Given(args.genre) then
      FindAnyIsAll(st.books);
      Some(Find(st.books, AnyBook))
    else if Given(args.author) && !Given(args.genre) then
      match AuthorFilterId(st, args.author.value)
      case Some(id) => Some(Find(st.books, AuthorIs(id)))
      case None => None
    else if Given(args.genre) && !Given(args.author) then
      Some(Find(st.books, HasGenre(args.genre.value)))
    else
      match AuthorFilterId(st, args.author.value)
      case Some(id) => Some(Find(st.books, AuthorAndGenre(id, args.genre.value)))
      case None => None
  }

  /** Selecting every book yields the store itself. */
  lemma {:induction false} FindAnyIsAll(books: seq<Book>)
    ensures Find(books, AnyBook) == books
    decreases |books|
  {
    if books != [] {
      FindAnyIsAll(books[1..]);
      assert [books[0]] + books[1..] == books;
    }
  }

  /** `allBooks`: the selected books with their authors joined in. Under the
      store invariant every returned book carries its author record. */
  function AllBooks(st: State, args: AllBooksArgs): (r: Option<seq<BookView>>)
    ensures r.Some? <==> SelectBooks(st, args).Some?
    ensures r.Some? ==> |r.value| == |SelectBooks(st, args).value|
    ensures r.Some? ==> forall k :: 0 <= k < |r.value| ==>
              r.value[k] == Populate(st.authors, SelectBooks(st, args).value[k])
    ensures r.Some? && Valid(st) ==> forall k :: 0 <= k < |r.value| ==>
              && r.value[k].author.Some?
              && r.value[k].author.value in st.authors
              && Some(r.value[k].author.value.id) == SelectBooks(st, args).value[k].doc.author
  {
    match SelectBooks(st, args)
    case None => None
    case Some(bs) =>
      assert forall k :: 0 <= k < |bs| ==> bs[k] in st.books;
      Some(seq(|bs|, k requires 0 <= k < |bs| => Populate(st.authors, bs[k])))
  }

  /** `allAuthors`: the saved authors in store order, as many as
      `authorCount` reports; in a valid store every book's author is among
      them. */
  function AllAuthors(st: State): (r: seq<Author>)
    ensures forall a :: a in r <==> a in st.authors
    ensures Seqs.IsSubseq(r, st.authors)
    ensures |r| == AuthorCount(st)
    ensures Valid(st) ==> forall b :: b in st.books ==> b.doc.author.Some? && b.doc.author.value in AuthorIds(r)
  {
    Seqs.SubseqRefl(st.authors);
    st.authors
  }

  /** `me`: the context's user; an anonymous request gets null, not an
      error. */
  function Me(ctx: Context): (r: Option<User>)
    ensures ctx.currentUser.None? ==> r.None?
    ensures ctx.currentUser.Some? ==> r == ctx.currentUser
  {
    ctx.currentUser
  }

  // -------------------------------------------------------------- mutations

  /** The genres a new book document gets: none given is an empty list. */
  function GenresOrEmpty(genres: Option<seq<string>>): seq<string> {
    genres.GetOr([])
  }

  /** The document `new Book({ ...args, author: author._id })` builds. */
  function BookDocFor(args: AddBookArgs, authorId: Id): BookSchema.BookDoc {
    BookSchema.BookDoc(Some(args.title), Some(args.published), Some(authorId), GenresOrEmpty(args.genres))
  }

  /** The author `addBook` files the book under: the first one with that
      name, or the one it creates. */
  function AuthorFor(st: State, name: string): Author {
    match AuthorNamed(st.authors, name)
    case Some(i) => st.authors[i]
    case None => NewAuthor(st, name, None)
  }

  /** The state in which `addBook` saves the book, once its author exists. */
  function StateWithAuthor(st: State, name: string): State {
    if AuthorNamed(st.authors, name).Some? then st
    else st.(authors := st.authors + [NewAuthor(st, name, None)], nextId := st.nextId + 1)
  }

  /** The second half of `addBook`: save the book under `a`; on success attach
      the author record, publish, and return the book. */
  function SaveBook(st: State, a: Author, args: AddBookArgs, bookVerdict: Verdict): (r: Reply<BookView>)
    ensures r.result.Failure? ==> r.state == st
    ensures r.result.Failure? ==> r.result.error.UserInputError? && r.result.error.invalidArgs == Some(OfAddBook(args))
    ensures r.result.Success? <==> BookSchema.Acceptable(BookDocFor(args, a.id), Docs(st.books)) && bookVerdict.Accept?
    ensures r.result.Success? ==>
              && r.result.value == BookView(st.nextId, Some(args.title), Some(args.published), Some(a), GenresOrEmpty(args.genres))
              && r.state.books == st.books + [Book(st.nextId, BookDocFor(args, a.id))]
              && r.state.events == st.events + [BookAdded(r.result.value)]
              && r.state.authors == st.authors && r.state.users == st.users
    ensures r.result.Success? && Valid(st) && a.id in AuthorIds(st.authors) ==> Valid(r.state)
  {
    var doc := BookDocFor(args, a.id);
    match InsertBook(st, doc, bookVerdict)
    case Failure(e) => Reply(Failure(UserInputError(Rejected(e), Some(OfAddBook(args)))), st)
    case Success(st') =>
      var view := BookView(st.nextId, doc.title, doc.published, Some(a), doc.genres);
      Reply(Success(view), Publish(st', BookAdded(view)))
  }

  /** `addBook`: authentication first; then existence-or-create of the
      author by exact name; then the book save. The two saves are not atomic:
      an author created here stays when the book save fails. */
  function AddBook(st: State, ctx: Context, args: AddBookArgs, authorVerdict: Verdict, bookVerdict: Verdict): (r: Reply<BookView>)
    // the authentication gate
    ensures ctx.currentUser.None? ==> r == Reply(Failure(AuthenticationError(NotAuthenticated)), st)
    // existence-or-create
    ensures ctx.currentUser.Some? && AuthorNamed(st.authors, args.author).Some? ==> r.state.authors == st.authors
    ensures ctx.currentUser.Some? && AuthorNamed(st.authors, args.author).None? && authorVerdict.Accept? ==>
              && r.state.authors == st.authors + [Author(st.nextId, args.author, None)]
              && forall j :: 0 <= j < |r.state.authors| && r.state.authors[j].name == args.author ==> j == |st.authors|
    ensures ctx.currentUser.Some? && AuthorNamed(st.authors, args.author).None? && authorVerdict.Refuse? ==>
              r == Reply(Failure(UserInputError(Rejected(Refused(authorVerdict.message)), Some(OfAddBook(args)))), st)
    // failures touch neither books nor the event log, and carry the arguments
    ensures r.state.users == st.users
    ensures r.result.Failure? ==> r.state.books == st.books && r.state.events == st.events
    ensures ctx.currentUser.Some? && r.result.Failure? ==>
              r.result.error.UserInputError? && r.result.error.invalidArgs == Some(OfAddBook(args))
    // when it succeeds
    ensures r.result.Success? <==>
              && ctx.currentUser.Some?
              && (AuthorNamed(st.authors, args.author).Some? || authorVerdict.Accept?)
              && BookSchema.Acceptable(BookDocFor(args, AuthorFor(st, args.author).id), Docs(st.books))
              && bookVerdict.Accept?
    // what success does: one book saved under that author, one event published
    ensures r.result.Success? ==>
              var a := AuthorFor(st, args.author);
              var id := StateWithAuthor(st, args.author).nextId;
              && a.name == args.author
              && r.result.value == BookView(id, Some(args.title), Some(args.published), Some(a), GenresOrEmpty(args.genres))
              && r.state.books == st.books + [Book(id, BookDocFor(args, a.id))]
              && r.state.events == st.events + [BookAdded(r.result.value)]
    ensures Valid(st) ==> Valid(r.state)
  {
    if ctx.currentUser.None? then
      Reply(Failure(AuthenticationError(NotAuthenticated)), st)
    else
      match AuthorNamed(st.authors, args.author)
      case Some(i) =>
        assert AuthorIds(st.authors)[i] == st.authors[i].id;
        SaveBook(st, st.authors[i], args, bookVerdict)
      case None =>
        match InsertAuthor(st, args.author, None, authorVerdict)
        case Failure(e) => Reply(Failure(UserInputError(Rejected(e), Some(OfAddBook(args)))), st)
        case Success(st') =>
          var a := NewAuthor(st, args.author, None);
          assert st' == StateWithAuthor(st, args.author);
          assert Docs(st'.books) == Docs(st.books);
          assert AuthorIds(st'.authors)[|st.authors|] == a.id;
          SaveBook(st', a, args, bookVerdict)
  }

  /** `addAuthor`: authentication, then an unconditional insert. */
  function AddAuthor(st: State, ctx: Context, args: AddAuthorArgs, v: Verdict): (r: Reply<Author>)
    ensures ctx.currentUser.None? ==> r == Reply(Failure(AuthenticationError(NotAuthenticated)), st)
    ensures ctx.currentUser.Some? && v.Refuse? ==>
              r == Reply(Failure(UserInputError(Rejected(Refused(v.message)), Some(OfAddAuthor(args)))), st)
    ensures r.result.Success? <==> ctx.currentUser.Some? && v.Accept?
    ensures r.result.Success? ==>
              && r.result.value.name == args.name && r.result.value.born == args.born
              && r.state.authors == st.authors + [r.result.value]
              && r.state.books == st.books && r.state.users == st.users && r.state.events == st.events
    ensures Valid(st) ==> Valid(r.state)
  {
    if ctx.currentUser.None? then
      Reply(Failure(AuthenticationError(NotAuthenticated)), st)
    else
      match InsertAuthor(st, args.name, args.born, v)
      case Failure(e) => Reply(Failure(UserInputError(Rejected(e), Some(OfAddAuthor(args)))), st)
      case Success(st') => Reply(Success(NewAuthor(st, args.name, args.born)), st')
  }

  /** `editAuthor`: authentication; an unknown name is a null result, not an
      error; otherwise only the birth year of the first author with that
      name changes. */
  function EditAuthor(st: State, ctx: Context, args: EditAuthorArgs, v: Verdict): (r: Reply<Option<Author>>)
    ensures ctx.currentUser.None? ==> r == Reply(Failure(AuthenticationError(NotAuthenticated)), st)
    ensures ctx.currentUser.Some? && AuthorNamed(st.authors, args.name).None? ==> r == Reply(Success(None), st)
    ensures ctx.currentUser.Some? && AuthorNamed(st.authors, args.name).Some? && v.Refuse? ==>
              r == Reply(Failure(UserInputError(Rejected(Refused(v.message)), Some(OfEditAuthor(args)))), st)
    ensures ctx.currentUser.Some? && AuthorNamed(st.authors, args.name).Some? && v.Accept? ==>
              var i := AuthorNamed(st.authors, args.name).value;
              && |r.state.authors| == |st.authors|
              && r.result == Success(Some(r.state.authors[i]))
              && r.state.authors[i] == st.authors[i].(born := Some(args.setBornTo))
              && (forall j :: 0 <= j < |st.authors| && j != i ==> r.state.authors[j] == st.authors[j])
              && r.state.books == st.books && r.state.users == st.users && r.state.events == st.events
    ensures Valid(st) ==> Valid(r.state)
  {
    if ctx.currentUser.None? then
      Reply(Failure(AuthenticationError(NotAuthenticated)), st)
    else
      match AuthorNamed(st.authors, args.name)
      case None => Reply(Success(None), st)
      case Some(i) =>
        var a := st.authors[i].(born := Some(args.setBornTo));
        match UpdateAuthor(st, i, a, v)
        case Failure(e) => Reply(Failure(UserInputError(Rejected(e), Some(OfEditAuthor(args)))), st)
        case Success(st') => Reply(Success(Some(a)), st')
  }

  /** `createUser`: no authentication; the save's promise is returned
      unawaited, so a rejected save reaches the caller as the store's own
      error, not as a user-input error. */
  function CreateUser(st: State, args: CreateUserArgs, v: Verdict): (r: Reply<User>)
    ensures v.Refuse? ==> r == Reply(Failure(SaveFailed(Refused(v.message))), st)
    ensures r.result.Success? <==> v.Accept?
    ensures r.result.Success? ==>
              && r.result.value.username == args.username && r.result.value.favoriteGenre == args.favoriteGenre
              && r.state.users == st.users + [r.result.value]
              && r.state.authors == st.authors && r.state.books == st.books && r.state.events == st.events
    ensures Valid(st) ==> Valid(r.state)
  {
    match InsertUser(st, args.username, args.favoriteGenre, v)
    case Failure(e) => Reply(Failure(SaveFailed(e)), st)
    case Success(st') => Reply(Success(User(st.nextId, args.username, args.favoriteGenre)), st')
  }

  /** `login`: the same error whether the user is unknown or the password is
      wrong; otherwise a token signed over exactly `{ username, id }` of the
      first user with that username. */
  function Login(st: State, args: LoginArgs, sign: Claim -> string): (r: Result<Token, Error>)
    ensures r.Failure? <==> UserNamed(st.users, args.username).None? || args.password != Secret
    ensures r.Failure? ==> r.error == UserInputError(Message(WrongCredentials), None)
    ensures r.Success? ==>
              var u := st.users[UserNamed(st.users, args.username).value];
              u.username == args.username && r.value == Token(sign(Claim(u.username, u.id)))
  {
    match UserNamed(st.users, args.username)
    case None => Failure(UserInputError(Message(WrongCredentials), None))
    case Some(i) =>
      if args.password != Secret then Failure(UserInputError(Message(WrongCredentials), None))
      else
        var u := st.users[i];
        Success(Token(sign(Claim(u.username, u.id))))
  }
}

=== FILE: seqs.dfy ===
/** Sequence facts shared by the server and the client model: duplicate
    freedom, order-preserving subsequences and first-match lookup (the way a
    document store's `findOne` and JavaScript's `includes` scan a list). */
module Seqs {
  import opened Wrappers

  /** No element occurs twice. */
  predicate NoDup<T(==)>(s: seq<T>) {
    forall i, j :: 0 <= i < j < |s| ==> s[i] != s[j]
  }

  /** `a` can be obtained from `b` by deleting elements, keeping the order of
      the rest. */
  predicate IsSubseq<T(==)>(a: seq<T>, b: seq<T>)
    decreases |b|
  {
    if a == [] then true
    else if b == [] then false
    else (a[0] == b[0] && IsSubseq(a[1..], b[1..])) || IsSubseq(a, b[1..])
  }

  /** Every sequence is a subsequence of itself. */
  lemma {:induction false} SubseqRefl<T>(s: seq<T>)
    ensures IsSubseq(s, s)
    decreases |s|
  {
    if s != [] {
      SubseqRefl(s[1..]);
    }
  }

  /** A subsequence is no longer than the sequence it is taken from, and one
      of the same length is the sequence itself. */
  lemma {:induction false} SubseqLength<T>(a: seq<T>, b: seq<T>)
    requires IsSubseq(a, b)
    ensures |a| <= |b|
    ensures |a| == |b| ==> a == b
    decreases |b|
  {
    if a != [] {
      if a[0] == b[0] && IsSubseq(a[1..], b[1..]) {
        SubseqLength(a[1..], b[1..]);
        if |a| == |b| {
          assert a == [a[0]] + a[1..] && b == [b[0]] + b[1..];
        }
      } else {
        SubseqLength(a, b[1..]);
      }
    }
  }

  /** Index of the first occurrence of `x` in `s`, if any. */
  function FirstIndex<T(==)>(s: seq<T>, x: T): (r: Option<nat>)
    ensures r.Some? ==> r.value < |s| && s[r.value] == x
    ensures r.Some? ==> forall j :: 0 <= j < r.value ==> s[j] != x
    ensures r.None? <==> x !in s
  {
    if s == [] then None
    else if s[0] == x then Some(0)
    else
      match FirstIndex(s[1..], x)
      case None => None
      case Some(i) => Some(i + 1)
  }

  /** The first occurrence is the only index that is an occurrence with no
      earlier one. */
  lemma FirstIndexIs<T>(s: seq<T>, x: T, k: nat)
    requires k < |s| && s[k] == x
    requires forall j :: 0 <= j < k ==> s[j] != x
    ensures FirstIndex(s, x) == Some(k)
  {
  }

  /** Appending an element changes no earlier first occurrence. */
  lemma FirstIndexSnoc<T>(p: seq<T>, x: T, y: T)
    requires y in p
    ensures FirstIndex(p + [x], y) == FirstIndex(p, y)
  {
    var k := FirstIndex(p, y).value;
    FirstIndexIs(p + [x], y, k);
  }

  /** Appending a fresh element keeps a sequence duplicate-free. */
  lemma NoDupSnoc<T>(s: seq<T>, x: T)
    requires NoDup(s) && x !in s
    ensures NoDup(s + [x])
  {
  }

  /** The distinct elements of a sequence. */
  function Elements<T>(s: seq<T>): set<T> {
    set x | x in s
  }

  /** A duplicate-free sequence has as many distinct elements as entries. */
  lemma {:induction false} NoDupCard<T>(s: seq<T>)
    requires NoDup(s)
    ensures |Elements(s)| == |s|
    decreases |s|
  {
    if s != [] {
      var p := s[..|s| - 1];
      var x := s[|s| - 1];
      assert s == p + [x];
      assert NoDup(p);
      NoDupCard(p);
      assert Elements(s) == Elements(p) + {x};
      assert x !in Elements(p);
    }
  }
}

=== FILE: store.dfy ===
/** The document store behind the resolvers, reduced to three in-memory
    collections (authors, books, users) kept in insertion order, plus the log
    of events published on the "book added" topic. Object ids come from a
    counter. `findOne` returns the first match in insertion order, `find`
    filters preserving that order, `countDocuments` counts the matches, and
    `save` may be refused: by the book schema, or by whatever the store or a
    schema outside this model decides (a `Verdict` parameter). */
module Store {
  import opened Wrappers
  import Seqs
  import BookSchema

  type Id = BookSchema.ObjectId

  datatype Author = Author(id: Id, name: string, born: Option<int>)

  datatype Book = Book(id: Id, doc: BookSchema.BookDoc)

  datatype User = User(id: Id, username: string, favoriteGenre: string)

  /** A book with its author reference replaced by the author record, as
      `populate('author')` and the `addBook` reply deliver it. */
  datatype BookView = BookView(
    id: Id,
    title: Option<string>,
    published: Option<int>,
    author: Option<Author>,
    genres: seq<string>)

  /** A message on the single "book added" topic. */
  datatype Event = BookAdded(book: BookView)

  datatype State = State(
    authors: seq<Author>,
    books: seq<Book>,
    users: seq<User>,
    events: seq<Event>,
    nextId: Id)

  /** The outcome of a save that this model does not decide itself: schema
      rules not in this model, or a storage fault. */
  datatype Verdict = Accept | Refuse(message: string)

  datatype StoreError = SchemaViolation(error: BookSchema.SchemaError) | Refused(message: string)

  const Empty := State([], [], [], [], 0)

  // Key projections, so that every lookup is one first-match scan.

  function AuthorNames(authors: seq<Author>): (r: seq<string>)
    ensures |r| == |authors| && forall i :: 0 <= i < |r| ==> r[i] == authors[i].name
  {
    seq(|authors|, i requires 0 <= i < |authors| => authors[i].name)
  }

  function AuthorIds(authors: seq<Author>): (r: seq<Id>)
    ensures |r| == |authors| && forall i :: 0 <= i < |r| ==> r[i] == authors[i].id
  {
    seq(|authors|, i requires 0 <= i < |authors| => authors[i].id)
  }

  function UserNames(users: seq<User>): (r: seq<string>)
    ensures |r| == |users| && forall i :: 0 <= i < |r| ==> r[i] == users[i].username
  {
    seq(|users|, i requires 0 <= i < |users| => users[i].username)
  }

  function UserIds(users: seq<User>): (r: seq<Id>)
    ensures |r| == |users| && forall i :: 0 <= i < |r| ==> r[i] == users[i].id
  {
    seq(|users|, i requires 0 <= i < |users| => users[i].id)
  }

  function Docs(books: seq<Book>): (r: seq<BookSchema.BookDoc>)
    ensures |r| == |books| && forall i :: 0 <= i < |r| ==> r[i] == books[i].doc
  {
    seq(|books|, i requires 0 <= i < |books| => books[i].doc)
  }

  /** `Author.findOne({ name })`: the position of the first author with that
      exact name. */
  function AuthorNamed(authors: seq<Author>, name: string): (r: Option<nat>)
    ensures r.Some? ==> r.value < |authors| && authors[r.value].name == name
    ensures r.Some? ==> forall j :: 0 <= j < r.value ==> authors[j].name != name
    ensures r.None? <==> forall j :: 0 <= j < |authors| ==> authors[j].name != name
  {
    Seqs.FirstIndex(AuthorNames(authors), name)
  }

  /** The author a book reference points to, looked up by id. */
  function AuthorWithId(authors: seq<Author>, id: Id): (r: Option<nat>)
    ensures r.Some? ==> r.value < |authors| && authors[r.value].id == id
    ensures r.None? <==> id !in AuthorIds(authors)
  {
    Seqs.FirstIndex(AuthorIds(authors), id)
  }

  /** `User.findOne({ username })`. */
  function UserNamed(users: seq<User>, username: string): (r: Option<nat>)
    ensures r.Some? ==> r.value < |users| && users[r.value].username == username
    ensures r.Some? ==> forall j :: 0 <= j < r.value ==> users[j].username != username
    ensures r.None? <==> forall j :: 0 <= j < |users| ==> users[j].username != username
  {
    Seqs.FirstIndex(UserNames(users), username)
  }

  /** `User.findById(id)`. */
  function UserWithId(users: seq<User>, id: Id): (r: Option<nat>)
    ensures r.Some? ==> r.value < |users| && users[r.value].id == id
    ensures r.None? <==> forall j :: 0 <= j < |users| ==> users[j].id != id
  {
    Seqs.FirstIndex(UserIds(users), id)
  }

  /** The four query filters the book resolvers send to `Book.find`:
      `author: { $in: [id] }` and `genres: { $in: [genre] }`, alone,
      together, or neither. */
  datatype BookFilter = AnyBook | AuthorIs(id: Id) | HasGenre(genre: string) | AuthorAndGenre(id: Id, genre: string)

  predicate Matches(f: BookFilter, b: Book) {
    match f
    case AnyBook => true
    case AuthorIs(id) => b.doc.author == Some(id)
    case HasGenre(g) => g in b.doc.genres
    case AuthorAndGenre(id, g) => b.doc.author == Some(id) && g in b.doc.genres
  }

  /** `Book.find(filter)`: the matching books, in store order. */
  function Find(books: seq<Book>, f: BookFilter): (r: seq<Book>)
    ensures forall b :: b in r <==> b in books && Matches(f, b)
    ensures Seqs.IsSubseq(r, books)
    ensures |r| <= |books|
    decreases |books|
  {
    if books == [] then []
    else if Matches(f, books[0]) then [books[0]] + Find(books[1..], f)
    else Find(books[1..], f)
  }

  /** A book appended to the store is found by exactly the filters it
      matches, after every earlier match. */
  lemma {:induction false} FindSnoc(books: seq<Book>, b: Book, f: BookFilter)
    ensures Find(books + [b], f) == Find(books, f) + (if Matches(f, b) then [b] else [])
    decreases |books|
  {
    if books == [] {
      assert books + [b] == [b];
      assert [b][1..] == [];
    } else {
      assert (books + [b])[0] == books[0];
      assert (books + [b])[1..] == books[1..] + [b];
      FindSnoc(books[1..], b, f);
    }
  }

  /** The store positions of the books a filter matches. */
  function MatchingPositions(books: seq<Book>, f: BookFilter): set<nat> {
    set i: nat | i < |books| && Matches(f, books[i])
  }

  /** Appending a book adds its position exactly when it matches. */
  lemma PositionsSnoc(p: seq<Book>, b: Book, f: BookFilter)
    ensures |MatchingPositions(p + [b], f)| == |MatchingPositions(p, f)| + (if Matches(f, b) then 1 else 0)
  {
    var books := p + [b];
    var before := MatchingPositions(p, f);
    var extra: set<nat> := if Matches(f, b) then {|p|} else {};
    forall i | i in MatchingPositions(books, f)
      ensures i in before + extra
    {
      if i < |p| {
        assert books[i] == p[i];
      }
    }
    forall i | i in before + extra
      ensures i in MatchingPositions(books, f)
    {
      if i < |p| {
        assert books[i] == p[i];
      }
    }
    assert MatchingPositions(books, f) == before + extra;
    assert before !! extra;
  }

  /** `countDocuments(filter)`, computed as the length of `find(filter)`,
      equals the number of matching positions. */
  lemma {:induction false} FindCountsMatches(books: seq<Book>, f: BookFilter)
    ensures |Find(books, f)| == |MatchingPositions(books, f)|
    decreases |books|
  {
    if books != [] {
      var p := books[..|books| - 1];
      var b := books[|books| - 1];
      assert books == p + [b];
      FindSnoc(p, b, f);
      FindCountsMatches(p, f);
      PositionsSnoc(p, b, f);
    }
  }

  /** `populate('author', { name: 1, born: 1 })`: replace the author
      reference by the record it points to, or by null when it dangles. */
  function Populate(authors: seq<Author>, b: Book): (v: BookView)
    ensures v.id == b.id && v.title == b.doc.title && v.published == b.doc.published
    ensures v.genres == b.doc.genres
    ensures v.author.Some? <==> b.doc.author.Some? && b.doc.author.value in AuthorIds(authors)
    ensures v.author.Some? ==> v.author.value in authors && v.author.value.id == b.doc.author.value
  {
    var author :=
      match b.doc.author
      case None => None
      case Some(id) =>
        match AuthorWithId(authors, id)
        case None => None
        case Some(i) => Some(authors[i]);
    BookView(b.id, b.doc.title, b.doc.published, author, b.doc.genres)
  }

  /** The store invariant: ids below the counter and distinct per
      collection, every saved book satisfies its schema (titles present, long
      enough, pairwise distinct), and every book refers to a saved author. */
  predicate Valid(st: State) {
    && (forall i :: 0 <= i < |st.authors| ==> st.authors[i].id < st.nextId)
    && (forall i :: 0 <= i < |st.books| ==> st.books[i].id < st.nextId)
    && (forall i :: 0 <= i < |st.users| ==> st.users[i].id < st.nextId)
    && Seqs.NoDup(AuthorIds(st.authors))
    && Seqs.NoDup(UserIds(st.users))
    && (forall i, j :: 0 <= i < j < |st.books| ==> st.books[i].id != st.books[j].id)
    && (forall i :: 0 <= i < |st.books| ==>
          st.books[i].doc.title.Some? && BookSchema.Utf16Length(st.books[i].doc.title.value) >= BookSchema.TitleMinLength)
    && (forall i, j :: 0 <= i < j < |st.books| ==> st.books[i].doc.title != st.books[j].doc.title)
    && (forall i :: 0 <= i < |st.books| ==>
          st.books[i].doc.author.Some? && st.books[i].doc.author.value in AuthorIds(st.authors))
  }

  /** In a valid store no book and no author is saved twice, so each
      collection has as many distinct records as entries. */
  lemma {:induction false} ValidCollectionsAreSets(st: State)
    requires Valid(st)
    ensures |Seqs.Elements(st.books)| == |st.books|
    ensures |Seqs.Elements(st.authors)| == |st.authors|
  {
    Seqs.NoDupCard(st.books);
    assert Seqs.NoDup(st.authors) by {
      forall i, j | 0 <= i < j < |st.authors|
        ensures st.authors[i] != st.authors[j]
      {
        assert AuthorIds(st.authors)[i] != AuthorIds(st.authors)[j];
      }
    }
    Seqs.NoDupCard(st.authors);
  }

  lemma EmptyIsValid()
    ensures Valid(Empty)
  {
  }

  /** The author record a save of `new Author({ name, born })` creates. */
  function NewAuthor(st: State, name: string, born: Option<int>): Author {
    Author(st.nextId, name, born)
  }

  /** Save a new author. */
  function InsertAuthor(st: State, name: string, born: Option<int>, v: Verdict): (r: Result<State, StoreError>)
    ensures v.Refuse? ==> r == Failure(Refused(v.message))
    ensures v.Accept? ==> r.Success?
    ensures r.Success? ==> r.value.authors == st.authors + [NewAuthor(st, name, born)]
    ensures r.Success? ==> r.value.books == st.books && r.value.users == st.users && r.value.events == st.events
    ensures r.Success? && Valid(st) ==> Valid(r.value)
  {
    match v
    case Refuse(m) => Failure(Refused(m))
    case Accept =>
      var a := NewAuthor(st, name, born);
      var st' := st.(authors := st.authors + [a], nextId := st.nextId + 1);
      assert AuthorIds(st'.authors) == AuthorIds(st.authors) + [a.id];
      Success(st')
  }

  /** Save a new book: schema validation against the saved books first, then
      the store's own verdict. */
  function InsertBook(st: State, doc: BookSchema.BookDoc, v: Verdict): (r: Result<State, StoreError>)
    ensures BookSchema.Validate(doc, Docs(st.books)).Some? ==>
              r == Failure(SchemaViolation(BookSchema.Validate(doc, Docs(st.books)).value))
    ensures r.Success? <==> BookSchema.Acceptable(doc, Docs(st.books)) && v.Accept?
    ensures r.Success? ==> r.value.books == st.books + [Book(st.nextId, doc)]
    ensures r.Success? ==> r.value.authors == st.authors && r.value.users == st.users && r.value.events == st.events
    ensures r.Success? && Valid(st) && doc.author.Some? && doc.author.value in AuthorIds(st.authors) ==> Valid(r.value)
  {
    match BookSchema.Validate(doc, Docs(st.books))
    case Some(e) => Failure(SchemaViolation(e))
    case None =>
      match v
      case Refuse(m) => Failure(Refused(m))
      case Accept =>
        var st' := st.(books := st.books + [Book(st.nextId, doc)], nextId := st.nextId + 1);
        assert forall i :: 0 <= i < |st.books| ==> st.books[i].doc.title != doc.title by {
          forall i | 0 <= i < |st.books|
            ensures st.books[i].doc.title != doc.title
          {
            assert Docs(st.books)[i] == st.books[i].doc;
          }
        }
        Success(st')
  }

  /** Save an edited author in place (same id). */
  function UpdateAuthor(st: State, i: nat, a: Author, v: Verdict): (r: Result<State, StoreError>)
    requires i < |st.authors| && a.id == st.authors[i].id
    ensures v.Refuse? ==> r == Failure(Refused(v.message))
    ensures v.Accept? ==> r.Success?
    ensures r.Success? ==> r.value.authors == st.authors[i := a]
    ensures r.Success? ==> r.value.books == st.books && r.value.users == st.users && r.value.events == st.events
    ensures r.Success? && Valid(st) ==> Valid(r.value)
  {
    match v
    case Refuse(m) => Failure(Refused(m))
    case Accept =>
      var st' := st.(authors := st.authors[i := a]);
      assert AuthorIds(st'.authors) == AuthorIds(st.authors);
      Success(st')
  }

  /** Save a new user. */
  function InsertUser(st: State, username: string, favoriteGenre: string, v: Verdict): (r: Result<State, StoreError>)
    ensures v.Refuse? ==> r == Failure(Refused(v.message))
    ensures v.Accept? ==> r.Success?
    ensures r.Success? ==> r.value.users == st.users + [User(st.nextId, username, favoriteGenre)]
    ensures r.Success? ==> r.value.authors == st.authors && r.value.books == st.books && r.value.events == st.events
    ensures r.Success? && Valid(st) ==> Valid(r.value)
  {
    match v
    case Refuse(m) => Failure(Refused(m))
    case Accept =>
      var u := User(st.nextId, username, favoriteGenre);
      var st' := st.(users := st.users + [u], nextId := st.nextId + 1);
      assert UserIds(st'.users) == UserIds(st.users) + [u.id];
      Success(st')
  }

  /** Publish an event on the "book added" topic: it is appended to the log. */
  function Publish(st: State, e: Event): (r: State)
    ensures r.events == st.events + [e]
    ensures r.authors == st.authors && r.books == st.books && r.users == st.users && r.nextId == st.nextId
    ensures Valid(st) ==> Valid(r)
  {
    st.(events := st.events + [e])
  }
}

=== FILE: wrappers.dfy ===
/** Option and Result, the two failure-carrying shapes the model uses in
    place of JavaScript's null/undefined and thrown errors. */
module Wrappers {

  /** A value that may be absent (null or undefined in the source). */
  datatype Option<+T> = None | Some(value: T) {

    /** The wrapped value, or `default` when absent. */
    function GetOr(default: T): T {
      match this
      case Some(v) => v
      case None => default
    }
  }

  /** The outcome of an operation that either yields a value or throws. */
  datatype Result<+R, +E> = Success(value: R) | Failure(error: E)
}
